=== FILE: README.md ===
# gocilib: the OCINumber codec and `durationAsDays`, modelled in Dafny

This project models two pieces of the gocilib Oracle driver and proves properties about them.

- **`OCINumber`** (`varnum.dfy`, module `OciNumber`). This is a fixed 22-byte buffer `[length, exponent, mantissa_0 … mantissa_19]` holding Oracle's internal NUMBER format. The module models its three methods:
  - `SetBytes` copies raw bytes in.
  - `String` decodes the buffer into an optional `-` and two characters per mantissa byte. They are decimal digits when the byte is in the documented range.
  - `SetString` encodes decimal text into the buffer.

  Bytes are integers 0..255. Every Go `byte` operation wraps modulo 256 through `Wrap8`. Text is a byte sequence, because Go strings are bytes. Go panics when an index is out of range; each such case becomes a precondition:
  - `Decodable`: the length byte is the NULL mark `0xFF` or at most 20.
  - `Fits`: the text needs at most 20 mantissa bytes, so at most 40 digits.

  The model shows that `SetString` does not match `String` or the Oracle layout quoted in the source. `SetStringFixed` is the encoder with the three defects corrected. It is proved to round-trip the sign and the digits through `String`, with the digits right-padded with '0' to an even count.
- **`durationAsDays`** (`bind.dfy`, module `Duration`). This converts a `time.Duration` (an int64 count of nanoseconds) into days, hours, minutes, seconds and milliseconds.
  - Go's `/` truncates toward zero; the model writes this as `Quot`.
  - int64 arithmetic wraps; the model writes this as `Wrap64`.
  - `DurationAsDays` is the function as written, which removes 240 hours per day.
  - `DurationAsDaysFixed` removes 24 hours per day. Its fields are proved to be in range and to add back up to the duration in whole milliseconds, truncated toward zero.

The decoder never emits a decimal point. It computes an exponent and then discards it. The digit stream therefore does not fix where the point goes. The model keeps this as it is, and `ExponentDiscarded` states it. A correctly written exponent byte does not place the point either. It holds only ceil(dot/2), the number of base-100 digits before the point (`FixedExponentRecoversPoint`). Both encoders cut digit pairs from the first digit, whatever the position of the point (varnum.go:100-113). So "1.5" and "15" are both stored as the one pair "15" with exponent 1, as are "1.2" and "12". A text with an odd number of digits before the point is stored ten times too large (`PointLost`).

Neither direction has an error path. The model follows the code:
- A zero-length buffer decodes to the empty text, not to `"0"`.
- A length byte of 21..254 panics. The model turns that into a precondition.
- Text is not validated. Every byte other than a leading `-` and the first `.` is packed as if it were a digit, including a `-` anywhere after index 0.
- Up to 40 digits are accepted, and 41 or more panic.
- `SetString("0")` does not write length 0. It writes the mantissa byte 255 and leaves the length byte alone.

## Model

| member | source | states |
|---|---|---|
| `OciNumber.SetBytes` | varnum.go:53-55 | each of the 22 bytes is taken from the data when the data reaches that far and is kept otherwise; a copy of 22 or more bytes does not depend on the old contents |
| `OciNumber.LoadedTextIgnoresOldBytes` | varnum.go:53-88 | raw bytes that supply the length byte and, unless it is NULL, the exponent byte and `length` mantissa bytes decode the same after `SetBytes`, whatever the buffer held before |
| `OciNumber.DecodeMantissa` | varnum.go:70-85 | a run of mantissa bytes becomes exactly two characters per byte, and neither is a '-' or a '.' |
| `OciNumber.DecodeMantissaPairs` | varnum.go:70-85 | mantissa byte j becomes characters 2j and 2j+1, `'0'+d/10` and `'0'+d%10` of its decoded digit d |
| `OciNumber.Decode` | varnum.go:57-88 | NULL (length byte 0xFF) decodes to the empty text; otherwise the text has 2·length characters when bit 7 of the exponent byte is set and 1 + 2·length when it is clear; it contains a '-' exactly when bit 7 is clear, and then starts with it; it never contains a '.' |
| `OciNumber.DecodedExponent` | varnum.go:66-77 | the exponent `String` computes is the exponent byte − 63 when bit 7 is set and the exponent byte + 63 when it is clear. Both lie in 63..192, so nothing is left of the byte wrap-around. `String` never uses the value |
| `OciNumber.DecodeDependsOnly` | varnum.go:61-87 | two buffers that agree on the length byte, on bit 7 of the exponent byte and on the first `length` mantissa bytes decode to the same text |
| `OciNumber.ExponentDiscarded` | varnum.go:66-77 | changing the exponent byte but not its sign bit changes the exponent the decoder computes, but not the text it returns |
| `OciNumber.DigitBytesDecode` | varnum.go:71-83 | a positive mantissa byte b in 1..100 decodes to the two decimal digits of b−1, and a negative byte in 2..101 to those of 101−b, which is the rule documented at lines 37-40 |
| `OciNumber.FormatMantissa` | varnum.go:67-86 | the formatting loop writes two characters per mantissa byte starting at index 0 or 1, stays inside the 42-byte scratch buffer, and leaves the decoded mantissa in the buffer |
| `OciNumber.String` | varnum.go:57-88 | the method the source runs (NULL check, sign test, scratch buffer, loop) returns exactly `Decode`'s text for every buffer whose length byte is 0xFF or at most 20 |
| `OciNumber.IndexByte` | varnum.go:100 | returns the index of the first occurrence of the byte, or −1 exactly when it does not occur |
| `OciNumber.ParseText` | varnum.go:95-105 | the text is positive exactly when it does not start with '-'; the point index is at most the digit count, which is at most the text length |
| `OciNumber.ParseTextSpec` | varnum.go:95-105 | the digits are the text with one leading '-' removed and then its first '.' removed, and `dot` is the index of that '.' (or the digit count when there is none); no other byte is checked |
| `OciNumber.Padded` | varnum.go:106-108 | the digits are kept as a prefix; an odd count gets one '0' appended; the result length is even, 2·ceil(m/2) |
| `OciNumber.ExponentByte` | varnum.go:109-117 | for up to 40 digits before the point, the exponent byte as written has bit 7 set for both signs; the corrected byte has bit 7 set exactly for positive text |
| `OciNumber.PairValue` | varnum.go:113 | on two decimal digit characters, the byte arithmetic `(hi-'0')*10 + lo - '0'` gives exactly their two-digit value v, with no wrap-around |
| `OciNumber.PairByte` | varnum.go:113-120 | on two decimal digits forming v, the stored byte is v−1 for a positive pair (255 for "00") and 101−v for a negative pair; the corrected positive pair gives v+1 |
| `OciNumber.PackPairs` | varnum.go:111-122 | digits are packed one byte per consecutive pair, in order, half as many bytes as digits |
| `OciNumber.Store` | varnum.go:109-123 | after encoding, the buffer holds the given length and exponent bytes, then the packed mantissa from index 2, and the old bytes after that |
| `OciNumber.SetString` | varnum.go:90-124 | empty text writes 0xFF into the length byte and changes nothing else; otherwise the length byte is left unchanged, byte 1 gets the exponent, bytes 2 .. 2+ceil(m/2) get the pair bytes of the padded digits, and all later bytes are unchanged |
| `OciNumber.SetStringFixed` | varnum.go:90-124 | the corrected encoder has the same frame as `SetString`, but it writes ceil(m/2) into the length byte, uses the corrected exponent byte and applies the +1 bias to positive pairs |
| `OciNumber.NullRoundTrip` | varnum.go:57-94 | encoding the empty text and then decoding gives the empty text, with both encoders |
| `OciNumber.NegativePairRoundTrip` | varnum.go:120 | a pair of digits encoded by the negative branch decodes back to the same two digits through line 81 |
| `OciNumber.PositivePairOffByTwo` | varnum.go:113 | a positive pair v ≥ 2 encoded by line 113 decodes through line 71 as the digits of v−2; "00" and "01" decode to the non-digit text "I4" and "I5" |
| `OciNumber.PositivePairRoundTrip` | varnum.go:37-39 | with the documented +1 bias, a positive pair decodes back to the same two digits |
| `OciNumber.SetStringNeverNegative` | varnum.go:117 | whatever the sign of the text, `SetString` leaves bit 7 of the exponent byte set, so the decoded text never contains '-' |
| `OciNumber.NullBufferStaysNull` | varnum.go:90-124 | because the length byte is never written, text stored into a NULL buffer still decodes as NULL |
| `OciNumber.TwelveReadsAsTen` | varnum.go:113 | "12" stored by `SetString` into a buffer with length byte 1 decodes as "10"; `SetStringFixed` gives "12" back |
| `OciNumber.MinusFiveReadsAsFifty` | varnum.go:117 | "-5" stored by `SetString` into a buffer with length byte 1 gets exponent byte 0xBE, whose bit 7 is set, and decodes as the positive "50"; `SetStringFixed` writes exponent 0x3E (lines 33-35) and gives "-50" back |
| `OciNumber.DecodeCorrectedPack` | varnum.go:37-40 | decoding the corrected packing of an even-length run of digits gives the same digits back |
| `OciNumber.FixedExponentRecoversPoint` | varnum.go:31-35 | the corrected exponent byte has bit 7 set exactly for positive text, and gives back ceil(dot/2) as byte−192 (positive) or 63−byte (negative) |
| `OciNumber.FixedRoundTrip` | varnum.go:90-124 | for digit text of at most 40 digits, decoding what `SetStringFixed` stored gives back the sign and the digits with the point removed, padded to an even count |
| `OciNumber.PointLost` | varnum.go:100-110 | both encoders store "1.5" exactly as they store "15": digit pairs are cut from the first digit without lining up with the point, and the point survives only as ceil(dot/2) |
| `Duration.Wrap64` | bind.go:269 | the wrapped value is an int64 congruent to the exact result modulo 2^64 |
| `Duration.QuotQuot` | bind.go:268 | `ns / Hour / 24` with truncating division equals the truncated quotient of ns by one day |
| `Duration.WholeDays` | bind.go:268 | `ns / Hour / 24` is the duration divided by one day, truncated toward zero |
| `Duration.AfterDays` | bind.go:269 | for \|d\| below one day, days is 0 and line 269 removes nothing, whatever the hours per day |
| `Duration.Convert` | bind.go:267-277 | whatever the hours removed per day, `days` is the truncated quotient by one day, and a duration under one day goes to the hours/minutes/seconds/milliseconds cascade unchanged |
| `Duration.DurationAsDays` | bind.go:266-278 | as written, `days` is the duration divided by one day and truncated toward zero; for \|d\| below one day the result equals the corrected conversion, so its fields are in range (hours < 24, minutes and seconds < 60, ms < 1000 in magnitude), carry d's sign and add back up to d / 1 000 000 truncated |
| `Duration.DurationAsDaysFixed` | bind.go:266-278 | with 24 hours per day on line 269, for every int64 duration the fields are in range and carry the duration's sign; days is the truncated quotient by one day; the fields add back up to the truncated millisecond count |
| `Duration.PeelCorrect` | bind.go:270-275 | one step `q := ns / unit; ns -= q·unit` on less than `bound` units gives a count below `bound` and a remainder below one unit; both have the sign of the input |
| `Duration.CascadeCorrect` | bind.go:270-276 | on less than a day of nanoseconds, hours, minutes, seconds and milliseconds are within ±24, ±60, ±60 and ±1000, share the input's sign, and add up to the input's truncated millisecond count |
| `Duration.FixedLeavesRemainder` | bind.go:268-269 | with 24 hours per day, line 269 leaves the truncated remainder modulo one day, which has the sign of the duration and is less than a day in magnitude |
| `Duration.ConvertByDays` | bind.go:267-277 | with 24 hours per day the cascade runs on that remainder, so every field is in range with the duration's sign and the fields add back up to the duration in whole milliseconds |
| `Duration.BeyondADayHoursNegative` | bind.go:269-270 | from one day up to 10 000 days, the function as written reports at least one day and negative hours, while the corrected hours lie in 0..23 |
| `Duration.BeyondMinusADayHoursPositive` | bind.go:269-270 | from minus one day down to minus 10 000 days, the function as written reports positive hours, while the corrected hours lie in −23..0 |
| `Duration.OneDay` | bind.go:269 | exactly 24 h converts to 1 day and −216 hours as written, and to 1 day and 0 hours once corrected |

## Left out

- `BindPos`, `BindName` and the rest of bind.go are a type switch over cgo calls into ocilib, using `unsafe`, `reflect` and logging. They are foreign calls with no behaviour visible here. The same holds for float binding and for date, interval, LOB and object construction through `OCI_*` functions, including the `ms/100` conversion at the call site.
- driver/driver_test.go needs a live Oracle server and contains no pure assertions to model.
- The index-out-of-range panics are modelled as preconditions (`Decodable`, `Fits`), not as error results, because the source has no error path.
- The source does not implement the trailing 102 byte for negative numbers or leading-zero normalisation. `SetStringFixed` does not add them either, so that `String` as written can read its output back.
- `OciNumber.SetStringFixed`: it corrects only the three defects in Findings. Like the source, it cuts digit pairs from the first digit without lining them up with the point (varnum.go:100-113), and it stores only ceil(dot/2) of the point's position. So a text with an odd number of digits before the point, such as "1.5" or "5", is stored ten times too large (`OciNumber.PointLost`). The fix would pad on the left when the point falls after an odd digit. That changes the digit stream `String` prints, so the round trip would no longer be literal.
- `OciNumber.String`: the 42-byte scratch is a value sequence of fixed length rather than a Go array. Nothing else sees it, so no aliasing is lost.
- `Duration.BeyondADayHoursNegative`: stated only for durations under 10 000 days. Beyond about 10 675 days, `days·240h` wraps around int64. The wrap is modelled in `Convert` but no lemma characterises it.
- `Duration.BeyondMinusADayHoursPositive`: likewise limited to durations above −10 000 days.
- Go's `int` is taken to be 64 bits wide. On a 32-bit platform, the `int(...)` conversions at bind.go:268-276 would truncate.

## Findings

| source | as written | input that shows it | evidently intended | confidence | as-written member | corrected member |
|---|---|---|---|---|---|---|
| varnum.go:113 | a positive digit pair v is stored as v−1, while `String` (line 71) and the comment at lines 37-39 use v+1 | "12" stored into a buffer with length byte 1 reads back as "10" | store v+1 | high; not executed | `OciNumber.TwelveReadsAsTen` | `OciNumber.FixedRoundTrip` |
| varnum.go:117 | the negative exponent byte `255 − ceil(dot/2) − 64` keeps bit 7 set, so `String` reads negative numbers as positive | "-5" stored into a buffer with length byte 1 reads back as "50" | the bitwise inverse of the positive byte, `63 − ceil(dot/2)` (0x3E for −5, as lines 33-35 say) | high; not executed | `OciNumber.MinusFiveReadsAsFifty` | `OciNumber.FixedExponentRecoversPoint` |
| varnum.go:90-124 | the length byte `n[0]` is never written for non-empty text | "12" stored into a NULL buffer (length byte 0xFF) still reads back as "" | write ceil(m/2) into `n[0]` | high; not executed | `OciNumber.NullBufferStaysNull` | `OciNumber.SetStringFixed` |
| bind.go:269 | removes `days · 240` hours instead of `days · 24` | a duration of exactly 24 h gives 1 day and −216 hours | remove `days · 24` hours | high; not executed | `Duration.BeyondADayHoursNegative` | `Duration.DurationAsDaysFixed` |

=== FILE: bind.dfy ===
/** Model of `durationAsDays` (bind.go): splitting a `time.Duration`, a signed
    64-bit count of nanoseconds, into days, hours, minutes, seconds and
    milliseconds with Go's truncating integer division and wrapping int64
    arithmetic.

    `DurationAsDays` is the function as written, which subtracts 240 hours
    per day instead of 24; `DurationAsDaysFixed` is the evidently intended
    conversion, proved to produce in-range fields that add back up to the
    duration in whole milliseconds, truncated toward zero. */
module Duration {

  /** Nanoseconds per unit, as the `time` package defines them. */
  const Millisecond: int := 1_000_000
  const Second: int := 1_000_000_000
  const Minute: int := 60_000_000_000
  const Hour: int := 3_600_000_000_000
  const Day: int := 86_400_000_000_000

  const Int64Min: int := -0x8000_0000_0000_0000
  const Int64Max: int := 0x7FFF_FFFF_FFFF_FFFF

  /** A Go `int64` (and `int` on a 64-bit platform). */
  type Int64 = x: int | Int64Min <= x <= Int64Max

  /** Two's-complement wrap-around of an integer result to 64 bits. */
  function Wrap64(x: int): (r: Int64)
    ensures (r - x) % 0x1_0000_0000_0000_0000 == 0
  {
    if Int64Min <= x <= Int64Max then x
    else (x - Int64Min) % 0x1_0000_0000_0000_0000 + Int64Min
  }

  /** Go's `/` on integers: the quotient truncated toward zero. */
  function Quot(a: int, b: int): int
    requires b > 0
  {
    if a >= 0 then a / b else -((-a) / b)
  }

  /** The five results of `durationAsDays`. */
  datatype Fields = Fields(days: int, hours: int, minutes: int, seconds: int, milliseconds: int)

  /** bind.go:267-277 with the number of hours removed per day on
      bind.go:269 as a parameter: the source uses 240, the intended value is
      24. Whatever that number, `days` is the truncated number of whole
      days, and a duration shorter than a day goes to the cascade unchanged. */
  function Convert(d: Int64, hoursPerDay: int): (r: Fields)
    ensures r.days == Quot(d, Day)
    ensures -Day < d < Day ==> r == Cascade(0, d)
  {
    Cascade(WholeDays(d), AfterDays(d, hoursPerDay))
  }

  /** bind.go:268: `ns / int64(time.Hour) / 24`, the duration divided by
      one day and truncated toward zero. */
  function WholeDays(d: Int64): (r: int)
    ensures r == Quot(d, Day)
  {
    QuotQuot(d);
    Quot(Quot(d, Hour), 24)
  }

  /** bind.go:269: `ns - int64(days) * int64(time.Hour) * hoursPerDay`,
      each operation wrapping to 64 bits. Within a day of zero nothing is
      removed. */
  function AfterDays(d: Int64, hoursPerDay: int): (r: Int64)
    ensures -Day < d < Day ==> r == d
  {
    assert -Day < d < Day ==> WholeDays(d) == 0 by {
      if -Day < d < Day {
        assert d >= 0 ==> d / Day == 0;
        assert d < 0 ==> (-d) / Day == 0;
      }
    }
    Wrap64(d - Wrap64(Wrap64(WholeDays(d) * Hour) * hoursPerDay))
  }

  /** The whole units in a nanosecond count and the nanoseconds left over. */
  datatype Split = Split(count: int, rest: Int64)

  /** One step of bind.go:270-275: `q := ns / unit; ns -= q * unit`. */
  function Peel(ns: Int64, unit: int): Split
    requires unit > 0
  {
    var q := Quot(ns, unit);
    Split(q, Wrap64(ns - Wrap64(q * unit)))
  }

  /** bind.go:270-276: peel hours, minutes, seconds and milliseconds off the
      nanoseconds left after the days. */
  function Cascade(days: int, ns1: Int64): Fields
  {
    var h := Peel(ns1, Hour);
    var m := Peel(h.rest, Minute);
    var s := Peel(m.rest, Second);
    Fields(days, h.count, m.count, s.count, Quot(s.rest, Millisecond))
  }

  /** `durationAsDays` as written. `days` is the truncated number of whole
      days; within a day of zero the faulty subtraction on bind.go:269
      removes nothing, so the result agrees with the corrected conversion
      and is therefore in range and adds back up to the duration. */
  function DurationAsDays(d: Int64): (r: Fields)
    ensures r.days == Quot(d, Day)
    ensures -Day < d < Day ==> r == DurationAsDaysFixed(d)
    ensures -Day < d < Day ==> InRange(r, d) && TotalMilliseconds(r) == Quot(d, Millisecond)
  {
    Convert(d, 240)
  }

  /** `durationAsDays` with bind.go:269 corrected: for every int64 duration
      each field is in range and carries the sign of the duration, `days` is
      the truncated number of whole days, and the fields add back up to the
      duration in whole milliseconds (sub-millisecond nanoseconds are dropped
      toward zero). */
  function DurationAsDaysFixed(d: Int64): (r: Fields)
    ensures r.days == Quot(d, Day)
    ensures InRange(r, d)
    ensures TotalMilliseconds(r) == Quot(d, Millisecond)
  {
    ConvertByDays(d);
    Convert(d, 24)
  }

  /** Every field lies strictly between -bound and bound for the units it
      counts, and carries the sign of the duration. */
  predicate InRange(f: Fields, d: int)
  {
    && -24 < f.hours < 24
    && -60 < f.minutes < 60
    && -60 < f.seconds < 60
    && -1000 < f.milliseconds < 1000
    && (d >= 0 ==> f.days >= 0 && f.hours >= 0 && f.minutes >= 0 && f.seconds >= 0 && f.milliseconds >= 0)
    && (d <= 0 ==> f.days <= 0 && f.hours <= 0 && f.minutes <= 0 && f.seconds <= 0 && f.milliseconds <= 0)
  }

  /** The number of whole milliseconds the fields stand for. */
  function TotalMilliseconds(f: Fields): int
  {
    f.days * 86_400_000 + f.hours * 3_600_000 + f.minutes * 60_000 + f.seconds * 1_000 + f.milliseconds
  }

  // ---------------------------------------------------------------------
  // Truncating division
  // ---------------------------------------------------------------------

  /** A non-zero multiple of a positive number is at least that number in
      magnitude. */
  lemma {:induction false} MulMagnitude(z: int, b: int)
    requires b > 0
    ensures z > 0 ==> z * b >= b
    ensures z < 0 ==> z * b <= -b
    ensures z == 0 ==> z * b == 0
    decreases if z < 0 then -z else z
  {
    if z > 1 {
      MulMagnitude(z - 1, b);
      assert z * b == (z - 1) * b + b;
    } else if z < -1 {
      MulMagnitude(z + 1, b);
      assert z * b == (z + 1) * b - b;
    }
  }

  /** Euclidean division is determined by any decomposition with an
      in-range remainder. */
  lemma DivUnique(a: int, b: int, q: int, r: int)
    requires b > 0 && a == q * b + r && 0 <= r < b
    ensures a / b == q
  {
    var q' := a / b;
    var r' := a % b;
    assert a == q' * b + r';
    assert (q' - q) * b == r - r';
    MulMagnitude(q' - q, b);
  }

  /** The truncated quotient and its remainder: the remainder has the sign
      of the dividend and is smaller in magnitude than the divisor. */
  lemma QuotRem(a: int, b: int)
    requires b > 0
    ensures var r := a - Quot(a, b) * b;
      && -b < r < b
      && (a >= 0 ==> 0 <= r && Quot(a, b) >= 0)
      && (a <= 0 ==> r <= 0 && Quot(a, b) <= 0)
  {
    if a >= 0 {
      assert a == (a / b) * b + a % b;
      MulMagnitude(a / b, b);
    } else {
      assert -a == ((-a) / b) * b + (-a) % b;
      MulMagnitude((-a) / b, b);
    }
  }

  /** Adding whole multiples of a positive divisor to a non-negative
      remainder shifts the Euclidean quotient by the same amount. */
  lemma DivShift(a: int, b: int, k: int, r: int)
    requires b > 0 && a == k * b + r && r >= 0
    ensures a / b == k + r / b
  {
    var q := r / b;
    var m := r % b;
    assert r == q * b + m;
    assert (k + q) * b == k * b + q * b;
    assert a == (k + q) * b + m;
    DivUnique(a, b, k + q, m);
  }

  /** Adding whole multiples of the divisor shifts the truncated quotient,
      provided the remainder keeps the sign of the total. */
  lemma QuotShift(a: int, b: int, k: int, r: int)
    requires b > 0 && a == k * b + r
    requires (a >= 0 && r >= 0) || (a <= 0 && r <= 0)
    ensures Quot(a, b) == k + Quot(r, b)
  {
    if a >= 0 && r >= 0 {
      DivShift(a, b, k, r);
    } else {
      assert (-k) * b == -(k * b);
      DivShift(-a, b, -k, -r);
    }
  }

  /** `ns / Hour / 24` is the truncated quotient by one day (bind.go:268). */
  lemma QuotQuot(ns: int)
    ensures Quot(Quot(ns, Hour), 24) == Quot(ns, Day)
  {
    var m := if ns >= 0 then ns else -ns;
    var q1 := m / Hour;
    var q2 := q1 / 24;
    assert m == q1 * Hour + m % Hour;
    assert q1 == q2 * 24 + q1 % 24;
    DivUnique(m, Day, q2, (q1 % 24) * Hour + m % Hour);
  }

  /** One step of the cascade: the quotient by `unit` is bounded by
      `bound` whenever the input is, and the remainder it leaves keeps the
      sign of the input and fits below `unit`. */
  lemma Step(ns: int, unit: int, bound: int)
    requires unit > 0 && bound > 0
    requires -bound * unit < ns < bound * unit
    ensures var q := Quot(ns, unit); var r := ns - q * unit;
      && -bound < q < bound
      && -unit < r < unit
      && (ns >= 0 ==> q >= 0 && r >= 0)
      && (ns <= 0 ==> q <= 0 && r <= 0)
  {
    QuotRem(ns, unit);
    var q := Quot(ns, unit);
    assert (q - bound) * unit == q * unit - bound * unit;
    assert (q + bound) * unit == q * unit + bound * unit;
    MulMagnitude(q - bound, unit);
    MulMagnitude(q + bound, unit);
  }

  // ---------------------------------------------------------------------
  // Properties
  // ---------------------------------------------------------------------

  /** One step of the cascade on less than `bound` units: the count is
      below `bound`, and what is left is the remainder, below one unit and
      of the input's sign. */
  lemma PeelCorrect(ns: Int64, unit: int, bound: int)
    requires unit > 0 && bound > 0 && bound * unit <= Day
    requires -bound * unit < ns < bound * unit
    ensures var p := Peel(ns, unit);
      && -bound < p.count < bound
      && p.rest == ns - p.count * unit
      && -unit < p.rest < unit
      && (ns >= 0 ==> p.count >= 0 && p.rest >= 0)
      && (ns <= 0 ==> p.count <= 0 && p.rest <= 0)
  {
    Step(ns, unit, bound);
  }

  /** bind.go:270-276 on less than a day of nanoseconds: each field is in
      range, carries the sign of the input and together they add up to the
      input in whole milliseconds. */
  lemma {:induction false} CascadeCorrect(days: int, ns1: Int64)
    requires -Day < ns1 < Day
    ensures var f := Cascade(days, ns1);
      && f.days == days
      && -24 < f.hours < 24 && -60 < f.minutes < 60 && -60 < f.seconds < 60 && -1000 < f.milliseconds < 1000
      && (ns1 >= 0 ==> f.hours >= 0 && f.minutes >= 0 && f.seconds >= 0 && f.milliseconds >= 0)
      && (ns1 <= 0 ==> f.hours <= 0 && f.minutes <= 0 && f.seconds <= 0 && f.milliseconds <= 0)
      && f.hours * 3_600_000 + f.minutes * 60_000 + f.seconds * 1_000 + f.milliseconds == Quot(ns1, Millisecond)
  {
    var h := Peel(ns1, Hour);
    PeelCorrect(ns1, Hour, 24);
    var m := Peel(h.rest, Minute);
    PeelCorrect(h.rest, Minute, 60);
    var s := Peel(m.rest, Second);
    PeelCorrect(m.rest, Second, 60);
    Step(s.rest, Millisecond, 1000);
    var k := h.count * 3_600_000 + m.count * 60_000 + s.count * 1_000;
    assert ns1 == k * Millisecond + s.rest;
    QuotShift(ns1, Millisecond, k, s.rest);
  }

  /** bind.go:268 followed by the corrected bind.go:269 leaves the
      remainder of the duration modulo one day, truncated toward zero. */
  lemma {:induction false} FixedLeavesRemainder(d: Int64)
    ensures -Day < d - Quot(d, Day) * Day < Day
    ensures (d >= 0 ==> Quot(d, Day) >= 0 && d - Quot(d, Day) * Day >= 0)
    ensures (d <= 0 ==> Quot(d, Day) <= 0 && d - Quot(d, Day) * Day <= 0)
    ensures AfterDays(d, 24) == d - Quot(d, Day) * Day
  {
    var days := Quot(d, Day);
    QuotRem(d, Day);
    assert Wrap64(days * Hour) == days * Hour;
    assert Wrap64(Wrap64(days * Hour) * 24) == days * Day;
  }

  /** With 24 hours per day the cascade receives the truncated remainder
      modulo one day. */
  lemma ConvertOnRemainder(d: Int64)
    ensures -Day < d - Quot(d, Day) * Day < Day
    ensures Convert(d, 24) == Cascade(Quot(d, Day), d - Quot(d, Day) * Day)
  {
    FixedLeavesRemainder(d);
  }

  /** Whole days plus the milliseconds of a same-signed remainder are the
      milliseconds of the whole duration, truncated toward zero. */
  lemma MillisecondsAddUp(d: int, days: int, ns1: int)
    requires d == days * Day + ns1
    requires (d >= 0 && ns1 >= 0) || (d <= 0 && ns1 <= 0)
    ensures days * 86_400_000 + Quot(ns1, Millisecond) == Quot(d, Millisecond)
  {
    assert d == (days * 86_400_000) * Millisecond + ns1;
    QuotShift(d, Millisecond, days * 86_400_000, ns1);
  }

  /** With 24 hours per day the cascade runs on the remainder modulo one
      day, so every field is in range and the fields add back up to the
      duration in whole milliseconds, truncated toward zero. */
  lemma {:induction false} ConvertByDays(d: Int64)
    ensures InRange(Convert(d, 24), d)
    ensures TotalMilliseconds(Convert(d, 24)) == Quot(d, Millisecond)
  {
    FixedLeavesRemainder(d);
    var days := Quot(d, Day);
    var ns1 := d - days * Day;
    ConvertOnRemainder(d);
    CascadeCorrect(days, ns1);
    MillisecondsAddUp(d, days, ns1);
  }

  /** One day or more (short of the int64 overflow region): bind.go:269
      takes away ten times too much, so `hours` comes out negative instead of
      being the remainder hour count in 0..23. */
  lemma BeyondADayHoursNegative(d: Int64)
    requires Day <= d < 10_000 * Day
    ensures DurationAsDays(d).days >= 1
    ensures DurationAsDays(d).hours < 0
    ensures 0 <= DurationAsDaysFixed(d).hours < 24
  {
    QuotQuot(d);
    QuotRem(d, Day);
    var days := Quot(d, Day);
    assert 1 <= days < 10_000;
    var ns1 := d - days * Hour * 240;
    assert ns1 < 0;
    QuotRem(ns1, Hour);
    assert DurationAsDays(d).hours == Quot(ns1, Hour);
    MulMagnitude(Quot(ns1, Hour), Hour);
  }

  /** The mirror image for negative durations of a day or more: `hours`
      comes out positive. */
  lemma BeyondMinusADayHoursPositive(d: Int64)
    requires -10_000 * Day < d <= -Day
    ensures DurationAsDays(d).days <= -1
    ensures DurationAsDays(d).hours > 0
    ensures -24 < DurationAsDaysFixed(d).hours <= 0
  {
    QuotQuot(d);
    QuotRem(d, Day);
    var days := Quot(d, Day);
    assert -10_000 < days <= -1;
    var ns1 := d - days * Hour * 240;
    assert ns1 > 0;
    QuotRem(ns1, Hour);
    assert DurationAsDays(d).hours == Quot(ns1, Hour);
    MulMagnitude(Quot(ns1, Hour), Hour);
  }

  /** Exactly one day converts to 1 day and -216 hours as written, and to
      1 day and 0 hours once corrected. */
  lemma OneDay()
    ensures DurationAsDays(Day) == Fields(1, -216, 0, 0, 0)
    ensures DurationAsDaysFixed(Day) == Fields(1, 0, 0, 0, 0)
  {
    QuotQuot(Day);
    DivUnique(Day, Day, 1, 0);
    assert Quot(Day, Day) == 1;
    DivUnique(216 * Hour, Hour, 216, 0);
    assert Quot(-216 * Hour, Hour) == -216;
  }
}

=== FILE: varnum.dfy ===
/** Model of varnum.go: the 22-byte `OCINumber` buffer holding Oracle's
    internal NUMBER representation `[length, exponent, mantissa_0 ..
    mantissa_19]`, and its conversions to and from decimal text.

    Go strings are byte strings, so text is a sequence of bytes here. All
    byte arithmetic wraps modulo 256 exactly as Go's `byte` does, and the
    index-out-of-range panics of the source become preconditions.

    `String` and `SetString` are modelled as written. `SetStringFixed` is
    the encoder with the three defects this model exposes corrected (the
    positive mantissa bias, the sign bit of negative exponents and the
    unwritten length byte); it is proved to round-trip the sign and the
    digits through `Decode`, the digits right-padded with '0' to an even
    count. Like the source it cuts digit pairs from the first digit,
    whatever the position of the point, and keeps only `ceil(dot/2)` of
    that position, so the point itself is not recovered (`PointLost`). */
module OciNumber {

  /** A Go `byte`. */
  type Byte = x: int | 0 <= x < 256

  /** Conversion of an integer result to `byte`: the unique byte congruent
      to it modulo 256. */
  function Wrap8(x: int): (r: Byte)
    ensures (r - x) % 256 == 0
  {
    if 0 <= x < 256 then x else x % 256
  }

  const BufferSize: nat := 22
  /** Most mantissa bytes the buffer holds. */
  const MaxMantissa: nat := 20
  /** The length byte that marks SQL NULL. */
  const NullLength: Byte := 0xFF
  /** Size of the scratch buffer `String` formats into. */
  const ScratchSize: nat := 42

  const Minus: Byte := 45  // '-'
  const Dot: Byte := 46    // '.'
  const Zero: Byte := 48   // '0'

  /** `OCINumber`: a fixed array of 22 bytes. */
  type Number = s: seq<Byte> | |s| == BufferSize witness seq(22, _ => 0)

  predicate IsDigit(c: Byte)
  {
    Zero <= c <= Zero + 9
  }

  predicate AllDigits(s: seq<Byte>)
  {
    forall i :: 0 <= i < |s| ==> IsDigit(s[i])
  }

  function DigitValue(c: Byte): int
  {
    c - Zero
  }

  // ---------------------------------------------------------------------
  // SetBytes (varnum.go:53-55)
  // ---------------------------------------------------------------------

  /** `copy(n[:], data)`: as many leading bytes of `data` as fit overwrite
      the buffer; the rest of the buffer keeps its old contents. */
  function SetBytes(n: Number, data: seq<Byte>): (r: Number)
    ensures forall i :: 0 <= i < BufferSize ==> r[i] == (if i < |data| then data[i] else n[i])
    ensures |data| >= BufferSize ==> r == data[..BufferSize]
  {
    if |data| >= BufferSize then data[..BufferSize] else data + n[|data|..]
  }

  // ---------------------------------------------------------------------
  // String (varnum.go:57-88)
  // ---------------------------------------------------------------------

  predicate IsNull(n: Number)
  {
    n[0] == NullLength
  }

  /** `first>>7 > 0`: bit 7 of the exponent byte, set for numbers the
      decoder treats as non-negative. */
  predicate SignBit(n: Number)
  {
    n[1] / 128 > 0
  }

  /** The buffers `String` can format without indexing past `n` (varnum.go:71
      or 81) or past its 42-byte scratch (varnum.go:72-73, 82-83). */
  predicate Decodable(n: Number)
  {
    IsNull(n) || n[0] <= MaxMantissa
  }

  /** varnum.go:71: the base-100 digit of a positive number's mantissa byte. */
  function PositiveDigit(b: Byte): Byte
  {
    Wrap8(b - 1)
  }

  /** varnum.go:81: the base-100 digit of a negative number's mantissa byte. */
  function NegativeDigit(b: Byte): Byte
  {
    Wrap8(101 - b)
  }

  function MantissaDigit(b: Byte, positive: bool): Byte
  {
    if positive then PositiveDigit(b) else NegativeDigit(b)
  }

  /** varnum.go:72-73 (and 82-83): the two characters written for one digit,
      `'0' + digit/10` and `'0' + digit%10` in byte arithmetic. */
  function DigitChars(digit: Byte): seq<Byte>
  {
    [Wrap8(Zero + digit / 10), Wrap8(Zero + digit % 10)]
  }

  /** The digit characters of a run of mantissa bytes (the loops of
      varnum.go:70-75 and 80-85). */
  function DecodeMantissa(m: seq<Byte>, positive: bool): (r: seq<Byte>)
    ensures |r| == 2 * |m|
    ensures Minus !in r && Dot !in r
  {
    if m == [] then []
    else DigitChars(MantissaDigit(m[0], positive)) + DecodeMantissa(m[1..], positive)
  }

  /** Mantissa byte `j` becomes characters `2j` and `2j+1`. */
  lemma {:induction false} DecodeMantissaPairs(m: seq<Byte>, positive: bool)
    ensures forall j :: 0 <= j < |m| ==>
      DecodeMantissa(m, positive)[2 * j..2 * j + 2] == DigitChars(MantissaDigit(m[j], positive))
    decreases |m|
  {
    if m != [] {
      DecodeMantissaPairs(m[1..], positive);
      var r := DecodeMantissa(m, positive);
      var rest := DecodeMantissa(m[1..], positive);
      forall j | 0 <= j < |m|
        ensures r[2 * j..2 * j + 2] == DigitChars(MantissaDigit(m[j], positive))
      {
        if j > 0 {
          assert r[2 * j..2 * j + 2] == rest[2 * (j - 1)..2 * (j - 1) + 2];
          assert m[j] == m[1..][j - 1];
        }
      }
    }
  }

  /** `String()`: the empty string for NULL; otherwise an optional '-'
      followed by two characters per mantissa byte. The exponent plays no
      part and no '.' is ever produced. */
  function Decode(n: Number): (r: seq<Byte>)
    requires Decodable(n)
    ensures IsNull(n) ==> r == []
    ensures !IsNull(n) ==> |r| == 2 * n[0] + (if SignBit(n) then 0 else 1)
    ensures !IsNull(n) && !SignBit(n) ==> r[0] == Minus
    ensures Minus in r <==> !IsNull(n) && !SignBit(n)
    ensures Dot !in r
  {
    if IsNull(n) then []
    else if SignBit(n) then DecodeMantissa(n[2..2 + n[0]], true)
    else [Minus] + DecodeMantissa(n[2..2 + n[0]], false)
  }

  /** The exponent `String` computes on varnum.go:66, 69 and 77 and then
      discards. */
  function DecodedExponent(n: Number): (r: Byte)
    ensures SignBit(n) ==> r == n[1] - 63
    ensures !SignBit(n) ==> r == n[1] + 63
  {
    if SignBit(n) then Wrap8(n[1] as int + 128 + 65) else Wrap8(n[1] as int - 128 - 65)
  }

  /** `String` reads only the length byte, bit 7 of the exponent byte and
      the first `length` mantissa bytes. */
  lemma DecodeDependsOnly(n: Number, n': Number)
    requires Decodable(n)
    requires n'[0] == n[0] && SignBit(n') == SignBit(n)
    requires !IsNull(n) ==> n'[2..2 + n[0]] == n[2..2 + n[0]]
    ensures Decodable(n') && Decode(n') == Decode(n)
  {
  }

  /** Changing the exponent byte while keeping its sign bit changes the
      exponent `String` computes but not the text it returns. */
  lemma ExponentDiscarded(n: Number, e: Byte)
    requires Decodable(n) && e / 128 == n[1] / 128 && e != n[1]
    ensures Decodable(n[1 := e]) && Decode(n[1 := e]) == Decode(n)
    ensures DecodedExponent(n[1 := e]) != DecodedExponent(n)
  {
    DecodeDependsOnly(n, n[1 := e]);
  }

  /** Raw bytes loaded with `SetBytes` decode the same whatever the buffer
      held before, as long as they supply the length byte and, unless it is
      the NULL mark, the exponent byte and the `length` mantissa bytes that
      `String` reads. */
  lemma LoadedTextIgnoresOldBytes(n: Number, n': Number, data: seq<Byte>)
    requires |data| >= 1
    requires data[0] == NullLength || (data[0] <= MaxMantissa && |data| >= 2 + data[0])
    ensures Decodable(SetBytes(n, data)) && Decodable(SetBytes(n', data))
    ensures Decode(SetBytes(n, data)) == Decode(SetBytes(n', data))
  {
    var r := SetBytes(n, data);
    var r' := SetBytes(n', data);
    if data[0] != NullLength {
      assert r'[2..2 + r[0]] == data[2..2 + data[0]] == r[2..2 + r[0]];
      DecodeDependsOnly(r, r');
    }
  }

  /** Decoding one mantissa byte in the documented range: a positive byte
      1..100 yields the two decimal digits of `b - 1`, a negative byte
      2..101 those of `101 - b`. */
  lemma DigitBytesDecode(b: Byte, positive: bool)
    requires if positive then 1 <= b <= 100 else 2 <= b <= 101
    ensures var c := DigitChars(MantissaDigit(b, positive));
      && IsDigit(c[0]) && IsDigit(c[1])
      && DigitValue(c[0]) * 10 + DigitValue(c[1]) == (if positive then b - 1 else 101 - b)
  {
  }

  /** Appending a mantissa byte appends its two characters. */
  lemma {:induction false} DecodeMantissaSnoc(m: seq<Byte>, b: Byte, positive: bool)
    ensures DecodeMantissa(m + [b], positive) == DecodeMantissa(m, positive) + DigitChars(MantissaDigit(b, positive))
    decreases |m|
  {
    if m == [] {
      assert m + [b] == [b];
    } else {
      assert (m + [b])[1..] == m[1..] + [b];
      DecodeMantissaSnoc(m[1..], b, positive);
    }
  }

  /** Writing two bytes at `i` and `i+1` extends the prefix before `i`. */
  lemma WritePair(s: seq<Byte>, i: nat, a: Byte, b: Byte)
    requires i + 1 < |s|
    ensures s[i := a][i + 1 := b][..i + 2] == s[..i] + [a, b]
  {
  }

  /** One more mantissa byte read from the buffer appends its two
      characters. */
  lemma MantissaStep(n: Number, positive: bool, j: nat)
    requires j < MaxMantissa
    ensures DecodeMantissa(n[2..2 + (j + 1)], positive)
      == DecodeMantissa(n[2..2 + j], positive) + DigitChars(MantissaDigit(n[j + 2], positive))
  {
    assert n[2..2 + (j + 1)] == n[2..2 + j] + [n[j + 2]];
    DecodeMantissaSnoc(n[2..2 + j], n[j + 2], positive);
  }

  /** The loop of varnum.go:70-75 (or 80-85): formats the first `n[0]`
      mantissa bytes into the scratch buffer from index `start` on, two
      characters per byte, never writing past the 42 bytes of the buffer. */
  method FormatMantissa(n: Number, positive: bool, txt: seq<Byte>, start: nat) returns (txt': seq<Byte>, i: nat)
    requires |txt| == ScratchSize && n[0] <= MaxMantissa && start <= 1
    ensures |txt'| == ScratchSize
    ensures i == start + 2 * n[0]
    ensures txt'[..i] == txt[..start] + DecodeMantissa(n[2..2 + n[0]], positive)
  {
    var length := n[0];
    txt' := txt;
    i := start;
    var j := 0;
    ghost var prefix := txt[..start];
    while j < length
      invariant 0 <= j <= length
      invariant |txt'| == ScratchSize
      invariant i == start + 2 * j
      invariant txt'[..i] == prefix + DecodeMantissa(n[2..2 + j], positive)
    {
      var digit := MantissaDigit(n[j + 2], positive);
      var chars := DigitChars(digit);
      assert txt'[i := chars[0]][i + 1 := chars[1]][..i + 2] == prefix + DecodeMantissa(n[2..2 + (j + 1)], positive) by {
        WritePair(txt', i, chars[0], chars[1]);
        MantissaStep(n, positive, j);
      }
      txt' := txt'[i := chars[0]][i + 1 := chars[1]];
      i := i + 2;
      j := j + 1;
    }
  }

  /** `String()` as the source runs it, formatting into a 42-byte scratch
      buffer: every write stays inside it and the text is `Decode`'s. */
  method String(n: Number) returns (s: seq<Byte>)
    requires Decodable(n)
    ensures s == Decode(n)
  {
    if n[0] == NullLength {
      return [];
    }
    var txt: seq<Byte> := seq(ScratchSize, _ => 0);
    var positive := n[1] / 128 > 0;
    var i;
    if positive {
      txt, i := FormatMantissa(n, true, txt, 0);
    } else {
      txt := txt[0 := Minus];
      txt, i := FormatMantissa(n, false, txt, 1);
    }
    s := txt[..i];
  }

  // ---------------------------------------------------------------------
  // SetString (varnum.go:90-124)
  // ---------------------------------------------------------------------

  /** `strings.IndexByte`: the index of the first `c` in `s`, or -1. */
  function IndexByte(s: seq<Byte>, c: Byte): (r: int)
    ensures -1 <= r < |s|
    ensures r >= 0 ==> s[r] == c
    ensures forall i :: 0 <= i < |s| && (r < 0 || i < r) ==> s[i] != c
  {
    if s == [] then -1
    else if s[0] == c then 0
    else
      var k := IndexByte(s[1..], c);
      if k < 0 then -1 else k + 1
  }

  /** The text after varnum.go:95-105: the sign, the digits with the point
      removed, and `dot`, the number of digits before the point. */
  datatype Text = Text(positive: bool, digits: seq<Byte>, dot: nat)

  /** The text with one leading '-' removed. */
  function Unsigned(txt: seq<Byte>): seq<Byte>
    requires txt != []
  {
    if txt[0] == Minus then txt[1..] else txt
  }

  /** varnum.go:95-105: strip one leading '-', then remove the first '.' and
      remember its index (the digit count when there is none). */
  function ParseText(txt: seq<Byte>): (t: Text)
    requires txt != []
    ensures t.positive <==> txt[0] != Minus
    ensures t.dot <= |t.digits| <= |txt|
  {
    var u := Unsigned(txt);
    var dot := IndexByte(u, Dot);
    if dot >= 0 then
      assert |u[..dot] + u[dot + 1..]| == |u| - 1;
      Text(txt[0] != Minus, u[..dot] + u[dot + 1..], dot)
    else Text(txt[0] != Minus, u, |u|)
  }

  /** Only a leading '-' and the first '.' are special: the digits are the
      unsigned text with that one '.' taken out, `dot` is its index, and
      every other byte (a second '.', a later '-', a letter) is kept as a
      digit unchecked. */
  lemma ParseTextSpec(txt: seq<Byte>)
    requires txt != []
    ensures var t := ParseText(txt); var u := Unsigned(txt);
      && (Dot in u ==> t.dot < |u| && u[t.dot] == Dot && Dot !in u[..t.dot] && t.digits == u[..t.dot] + u[t.dot + 1..])
      && (Dot !in u ==> t.digits == u && t.dot == |u|)
  {
  }

  /** varnum.go:106-108: an odd number of digits gets a '0' appended. */
  function Padded(d: seq<Byte>): (r: seq<Byte>)
    ensures |r| % 2 == 0 && |r| == 2 * ((|d| + 1) / 2)
    ensures r[..|d|] == d
    ensures |d| < |r| ==> r[|d|] == Zero
  {
    if |d| % 2 == 1 then d + [Zero] else d
  }

  /** Number of mantissa bytes the digits occupy, `ceil(m/2)`. */
  function MantissaLength(t: Text): nat
  {
    (|t.digits| + 1) / 2
  }

  /** `SetString` writes `n[2 .. 2+ceil(m/2))`, so it panics unless the
      digits fill at most 20 bytes. */
  predicate Fits(txt: seq<Byte>)
  {
    txt == [] || MantissaLength(ParseText(txt)) <= MaxMantissa
  }

  /** Which encoding rules apply: the source's, or the corrected ones. */
  datatype Rule = AsWritten | Corrected

  /** The exponent byte: varnum.go:110 / 117 as written; corrected, a negative
      number stores the bitwise inverse of the positive byte, as Oracle's
      format requires. */
  function ExponentByte(rule: Rule, positive: bool, dot: nat): (r: Byte)
    ensures rule == AsWritten && dot <= 2 * MaxMantissa ==> r / 128 == 1
    ensures rule == Corrected && dot <= 2 * MaxMantissa ==> (r / 128 == 1 <==> positive)
  {
    var e := (dot + 1) / 2;
    match rule
    case AsWritten => if positive then Wrap8(128 + e + 64) else Wrap8(255 - e - 64)
    case Corrected => if positive then Wrap8(128 + e + 64) else Wrap8(255 - (128 + e + 64))
  }

  /** `(txt[i]-'0')*10 + txt[i+1] - '0'`, each step in byte arithmetic. */
  function PairValue(hi: Byte, lo: Byte): (r: Byte)
    ensures IsDigit(hi) && IsDigit(lo) ==> r == DigitValue(hi) * 10 + DigitValue(lo)
  {
    Wrap8(Wrap8(Wrap8(Wrap8(hi - Zero) * 10) + lo) - Zero)
  }

  /** One mantissa byte for the pair `hi lo`: varnum.go:113 / 120 as
      written (`value - 1` when positive); corrected, `value + 1` when
      positive. On two decimal digits the byte arithmetic is exact up to the
      final bias: a positive pair `v` is stored as `v - 1`, so "00" becomes
      255, a negative pair as `101 - v`, and corrected positive pairs as
      `v + 1`. */
  function PairByte(rule: Rule, positive: bool, hi: Byte, lo: Byte): (r: Byte)
    ensures IsDigit(hi) && IsDigit(lo) ==>
      var v := DigitValue(hi) * 10 + DigitValue(lo);
      r == if !positive then 101 - v
           else if rule == Corrected then v + 1
           else if v == 0 then 255 else v - 1
  {
    if !positive then Wrap8(101 - PairValue(hi, lo))
    else if rule == AsWritten then Wrap8(PairValue(hi, lo) - 1)
    else Wrap8(PairValue(hi, lo) + 1)
  }

  /** The loops of varnum.go:111-115 and 118-122: one byte per pair of digits. */
  function PackPairs(rule: Rule, positive: bool, d: seq<Byte>): (r: seq<Byte>)
    requires |d| % 2 == 0
    ensures |r| == |d| / 2
    ensures forall k :: 0 <= k < |r| ==> r[k] == PairByte(rule, positive, d[2 * k], d[2 * k + 1])
    decreases |d|
  {
    if d == [] then []
    else [PairByte(rule, positive, d[0], d[1])] + PackPairs(rule, positive, d[2..])
  }

  /** The buffer after varnum.go:110-122: `first` at index 0, the exponent
      byte at index 1, the packed mantissa from index 2, and the old bytes
      after it. */
  function Store(n: Number, first: Byte, exponent: Byte, packed: seq<Byte>): (r: Number)
    requires |packed| <= MaxMantissa
    ensures r[0] == first && r[1] == exponent
    ensures forall k :: 2 <= k < BufferSize ==> r[k] == if k < 2 + |packed| then packed[k - 2] else n[k]
    ensures r[2..2 + |packed|] == packed
  {
    [first, exponent] + packed + n[2 + |packed|..]
  }

  /** `SetString` as written. The empty text stores the NULL sentinel and
      touches nothing else. Otherwise the length byte is left as it was,
      byte 1 gets the exponent, the next `ceil(m/2)` bytes get the packed
      digit pairs, and the remaining bytes are untouched. */
  function SetString(n: Number, txt: seq<Byte>): (r: Number)
    requires Fits(txt)
    ensures txt == [] ==> r[0] == NullLength && r[1..] == n[1..]
    ensures txt != [] ==> r[0] == n[0]
    ensures txt != [] ==> r[1] == ExponentByte(AsWritten, ParseText(txt).positive, ParseText(txt).dot)
    ensures txt != [] ==>
      var t := ParseText(txt);
      var p := Padded(t.digits);
      forall k :: 2 <= k < BufferSize ==>
        r[k] == if k < 2 + MantissaLength(t) then PairByte(AsWritten, t.positive, p[2 * (k - 2)], p[2 * (k - 2) + 1]) else n[k]
  {
    if txt == [] then n[0 := NullLength]
    else
      var t := ParseText(txt);
      var packed := PackPairs(AsWritten, t.positive, Padded(t.digits));
      Store(n, n[0], ExponentByte(AsWritten, t.positive, t.dot), packed)
  }

  /** The encoder with the three defects corrected: the length byte is
      written, negative exponents have bit 7 clear, and positive digits
      carry the documented `+1` bias. Bytes past the mantissa are left as
      they were. Pairs are still cut from the first digit, not aligned
      with the point (varnum.go:100-113). */
  function SetStringFixed(n: Number, txt: seq<Byte>): (r: Number)
    requires Fits(txt)
    ensures txt == [] ==> r[0] == NullLength && r[1..] == n[1..]
    ensures txt != [] ==> r[0] == MantissaLength(ParseText(txt))
    ensures txt != [] ==> r[1] == ExponentByte(Corrected, ParseText(txt).positive, ParseText(txt).dot)
    ensures txt != [] ==>
      var t := ParseText(txt);
      var p := Padded(t.digits);
      forall k :: 2 <= k < BufferSize ==>
        r[k] == if k < 2 + MantissaLength(t) then PairByte(Corrected, t.positive, p[2 * (k - 2)], p[2 * (k - 2) + 1]) else n[k]
  {
    if txt == [] then n[0 := NullLength]
    else
      var t := ParseText(txt);
      var packed := PackPairs(Corrected, t.positive, Padded(t.digits));
      Store(n, |packed|, ExponentByte(Corrected, t.positive, t.dot), packed)
  }

  // ---------------------------------------------------------------------
  // What String makes of SetString
  // ---------------------------------------------------------------------

  /** NULL round-trips: the empty text decodes back to the empty text. */
  lemma NullRoundTrip(n: Number)
    ensures Decode(SetString(n, [])) == []
    ensures Decode(SetStringFixed(n, [])) == []
  {
  }

  /** A negative pair encoded by varnum.go:120 decodes back to the same two
      digits through varnum.go:81. */
  lemma NegativePairRoundTrip(rule: Rule, hi: Byte, lo: Byte)
    requires IsDigit(hi) && IsDigit(lo)
    ensures DigitChars(NegativeDigit(PairByte(rule, false, hi, lo))) == [hi, lo]
  {
  }

  /** A positive pair `v` encoded by varnum.go:113 decodes through varnum.go:71 as
      the two digits of `v - 2` when `v >= 2`; "00" and "01" come back as
      the non-digit text "I4" and "I5". */
  lemma PositivePairOffByTwo(hi: Byte, lo: Byte)
    requires IsDigit(hi) && IsDigit(lo)
    ensures var v := DigitValue(hi) * 10 + DigitValue(lo);
      var c := DigitChars(PositiveDigit(PairByte(AsWritten, true, hi, lo)));
      && (v >= 2 ==> IsDigit(c[0]) && IsDigit(c[1]) && DigitValue(c[0]) * 10 + DigitValue(c[1]) == v - 2)
      && (v == 0 ==> c == [73, 52])
      && (v == 1 ==> c == [73, 53])
  {
  }

  /** The corrected positive pair decodes back to the same two digits. */
  lemma PositivePairRoundTrip(hi: Byte, lo: Byte)
    requires IsDigit(hi) && IsDigit(lo)
    ensures DigitChars(PositiveDigit(PairByte(Corrected, true, hi, lo))) == [hi, lo]
  {
  }

  /** Whatever the sign of the text, the exponent byte `SetString` writes
      has bit 7 set, so `String` reads every encoded number as positive. */
  lemma SetStringNeverNegative(n: Number, txt: seq<Byte>)
    requires txt != [] && Fits(txt)
    ensures SignBit(SetString(n, txt))
    ensures Decodable(SetString(n, txt)) ==> Minus !in Decode(SetString(n, txt))
  {
  }

  /** The length byte is never written, so text stored into a NULL buffer
      still reads back as NULL. */
  lemma NullBufferStaysNull(n: Number, txt: seq<Byte>)
    requires IsNull(n) && txt != [] && Fits(txt)
    ensures Decode(SetString(n, txt)) == []
  {
  }

  /** "12" stored into a buffer whose length byte is 1 reads back as "10";
      the corrected encoder gives "12" back. */
  lemma TwelveReadsAsTen(n: Number)
    requires n[0] == 1
    ensures Decode(SetString(n, [49, 50])) == [49, 48]
    ensures Decode(SetStringFixed(n, [49, 50])) == [49, 50]
  {
    var txt: seq<Byte> := [49, 50];
    assert IndexByte(txt, Dot) == -1;
    assert ParseText(txt) == Text(true, txt, 2);
    assert Padded(txt) == txt;
    assert PackPairs(AsWritten, true, txt) == [11];
    assert PackPairs(Corrected, true, txt) == [13];
    var r := SetString(n, txt);
    assert r == Store(n, 1, 193, [11]);
    assert r[2..3] == [11];
    var r' := SetStringFixed(n, txt);
    assert r' == Store(n, 1, 193, [13]);
    assert r'[2..3] == [13];
  }

  /** "-5" stored into a buffer whose length byte is 1 reads back as the
      positive "50"; the corrected encoder gives "-50". */
  lemma MinusFiveReadsAsFifty(n: Number)
    requires n[0] == 1
    ensures Decode(SetString(n, [Minus, 53])) == [53, 48]
    ensures Decode(SetStringFixed(n, [Minus, 53])) == [Minus, 53, 48]
    ensures SetString(n, [Minus, 53])[1] == 0xBE
    ensures SetStringFixed(n, [Minus, 53])[1] == 0x3E
  {
    var txt: seq<Byte> := [Minus, 53];
    assert Unsigned(txt) == [53];
    assert IndexByte([53], Dot) == -1;
    assert ParseText(txt) == Text(false, [53], 1);
    assert Padded([53]) == [53, Zero];
    assert PackPairs(AsWritten, false, [53, Zero]) == [51];
    assert PackPairs(Corrected, false, [53, Zero]) == [51];
    var r := SetString(n, txt);
    assert r == Store(n, 1, 190, [51]);
    assert r[2..3] == [51];
    var r' := SetStringFixed(n, txt);
    assert r' == Store(n, 1, 62, [51]);
    assert r'[2..3] == [51];
  }

  /** Decoding the corrected packing of a run of digits gives the digits
      back. */
  lemma {:induction false} DecodeCorrectedPack(positive: bool, d: seq<Byte>)
    requires |d| % 2 == 0 && AllDigits(d)
    ensures DecodeMantissa(PackPairs(Corrected, positive, d), positive) == d
    decreases |d|
  {
    if d != [] {
      var packed := PackPairs(Corrected, positive, d);
      assert DigitChars(MantissaDigit(packed[0], positive)) == d[..2];
      assert packed[1..] == PackPairs(Corrected, positive, d[2..]);
      DecodeCorrectedPack(positive, d[2..]);
      assert d == d[..2] + d[2..];
    }
  }

  /** Padding a run of digits keeps it a run of digits. */
  lemma PaddedDigits(d: seq<Byte>)
    requires AllDigits(d)
    ensures AllDigits(Padded(d))
  {
    var p := Padded(d);
    forall i | 0 <= i < |p|
      ensures IsDigit(p[i])
    {
      if i < |d| {
        assert p[i] == p[..|d|][i];
      }
    }
  }

  /** The corrected exponent byte gives back the sign of the text and
      `ceil(dot/2)`, the number of base-100 digits before the point. */
  lemma FixedExponentRecoversPoint(n: Number, txt: seq<Byte>)
    requires txt != [] && Fits(txt)
    ensures var t := ParseText(txt); var r := SetStringFixed(n, txt);
      && (SignBit(r) <==> t.positive)
      && (if t.positive then r[1] - 192 else 63 - r[1]) == (t.dot + 1) / 2
  {
  }

  /** The corrected encoder round-trips: decoding gives back the sign and
      the digits of the text, padded to an even count. */
  lemma {:induction false} FixedRoundTrip(n: Number, txt: seq<Byte>)
    requires txt != [] && Fits(txt)
    requires AllDigits(ParseText(txt).digits)
    ensures var t := ParseText(txt);
      Decode(SetStringFixed(n, txt)) == (if t.positive then [] else [Minus]) + Padded(t.digits)
  {
    var t := ParseText(txt);
    var p := Padded(t.digits);
    PaddedDigits(t.digits);
    var packed := PackPairs(Corrected, t.positive, p);
    var r := SetStringFixed(n, txt);
    assert r == Store(n, |packed|, ExponentByte(Corrected, t.positive, t.dot), packed);
    assert r[2..2 + r[0]] == packed;
    FixedExponentRecoversPoint(n, txt);
    DecodeCorrectedPack(t.positive, p);
  }

  /** Digit pairs are cut from the first digit without lining them up
      with the point, and the position of the point survives only as
      `ceil(dot/2)`. So even the corrected encoder cannot tell "1.5" from
      "15" (both are the one pair "15" with exponent 1): a text with an odd
      number of digits before the point is stored ten times too large. */
  lemma PointLost(n: Number)
    ensures SetStringFixed(n, [49, Dot, 53]) == SetStringFixed(n, [49, 53])
    ensures SetString(n, [49, Dot, 53]) == SetString(n, [49, 53])
  {
    assert ParseText([49, Dot, 53]) == Text(true, [49, 53], 1) by {
      assert IndexByte([49, Dot, 53], Dot) == 1;
      assert [49, Dot, 53][..1] + [49, Dot, 53][2..] == [49, 53];
    }
    assert ParseText([49, 53]) == Text(true, [49, 53], 2) by {
      assert IndexByte([53], Dot) == -1;
      assert IndexByte([49, 53], Dot) == -1;
    }
  }
}
